=== FILE: README.md ===
# Recipe extraction of `scraper.py`, modelled in Dafny

This project models the recipe-extraction core of `scraper.py`, the web scraper of
the *bytes-into-baking* repository, and proves properties of the model. The scraper
fetches a recipe page and looks for schema.org `Recipe` data in the page's JSON-LD
blocks. For that it uses one generic search for a key in a decoded JSON tree. When
the structured data gives no instructions, it falls back to the text of known
recipe-content `div`s. It then assembles a `Recipe` record.

Modules, in dependency order:

- `Python` (python.dfy): `Option`, the exceptions the code can raise, and a `Result` that holds a value or a raised exception.
- `Json` (json.dfy): the decoded JSON tree, with object members in iteration order. It also holds Python truthiness, `== False`, `dict.get`, and reference predicates (`Occurs`, `Present`, `AllTruthy`) that describe where a key occurs.
- `Search` (search.dfy): `find_value_of_nested_dict_or_list`, with lemmas about search order, soundness and completeness.
- `Instructions` (instructions.dfy): normalisation of the located `recipeInstructions` value into one string.
- `Html` (html.dfy): the page as the scraper sees it after parsing. It holds the fallback allow-list and the text it produces, plus the primary language subtag.
- `Fetch` (fetch.dfy): header rotation over the three header sets.
- `Extract` (extract.dfy): the loop over the JSON-LD blocks and the fallback decision.
- `Record` (record.dfy): the `Recipe` class and the call `Recipe(**res)`.
- `Scraper` (scraper.dfy): `scrape_page` itself, as the outcome of one call.
- `Examples` (examples.dfy): concrete payloads and pages.

Behaviour of the code that the model keeps as written:

- The search answers `False` when it finds nothing. So "not found" and "found the value `False`" cannot be told apart.
- A nested answer counts only when it is truthy. A truthy match deep inside an earlier member beats a direct member that comes later.
- The `language` local is reset to `''` at line 102, after the declared language has been read. Every assembled record therefore has an empty language.
- A lookup that finds nothing stores `False`, not `""`, into `recipe_name`, `cook_time` and `ingredients`. A lookup that succeeds stores the JSON value itself, for example a list of ingredient strings.
- The fallback test is `... == False`. Located instructions of `0` therefore trigger the fallback, and instructions of `""` do not.
- The dict assembled at lines 138-148 has a `page_genus` key that `Recipe.__init__` does not accept. `Recipe(**res)` raises a `TypeError`. The handler rebuilds the record from the same dict and raises again, so the exception leaves `scrape_page`. The only record `scrape_page` ever returns is the url-only record of lines 63-72. It returns that record when no header set gets a 200, and when something raises before line 138.

Other facts about the code that the model keeps:

- There is no `@type`-based root selection and no choice of the longest JSON-LD block. Every block is processed in order.
- The name, cook time and ingredients come from the last block, `False` included. The instructions come from the last block whose located instructions are truthy.
- Only the last block decides whether the fallback runs. When its search answers something equal to `False`, the content-`div` text replaces the instructions, even instructions an earlier block supplied. With no content `div`, that text is `""`.
- The search gives no priority to shallow matches. A truthy match inside an earlier sibling wins over a later direct key.
- An exception from the HTTP client ends the whole header rotation, because it leaves the `try` at once.
- The `page_family` and `page_species` labels passed to `ScrapePage` are never used. Both dicts pass `""` for them.
- The success path always raises (see above).

## Model

| member | source | states |
|---|---|---|
| `Search.Locate` | scraper.py:156-174 | any answer other than `False` is the value of a member named by the key somewhere in the tree; scalars, strings included, answer `False`; a falsy answer other than `False` is the value of a direct member of the node searched |
| `Search.LocateItems` | scraper.py:161-165 | the list loop answers `False` or a truthy value that occurs under one of its elements |
| `Search.LocateMembers` | scraper.py:166-173 | the dict loop answers `False` or a value that occurs in the object, and a falsy answer is the value of one of its own members named by the key |
| `Search.ArrayFirstTruthyWins` | scraper.py:161-165 | on a list, the answer is the nested answer of the first element whose nested answer is truthy |
| `Search.ArrayNoTruthyNotFound` | scraper.py:161-165 | on a list where no element yields a truthy answer, the search answers `False` |
| `Search.ObjectFirstStopWins` | scraper.py:166-173 | on a dict, the first member that is named by the key or has a truthy nested answer decides: its own value, or its nested answer; a deep match in an earlier sibling beats a later direct member |
| `Search.ObjectNoStopNotFound` | scraper.py:166-174 | on a dict where no member is named by the key and no nested answer is truthy, the search answers `False` |
| `Search.AbsentKeyNotFound` | scraper.py:156-174 | a key that occurs nowhere in the tree gives `False` |
| `Search.FoundWhenAllTruthy` | scraper.py:156-174 | when the key occurs and all its values are truthy, the search answers a truthy value that occurs in the tree |
| `Json.Get` | scraper.py:119 | `dict.get` finds a value exactly when some member has that key, and the value belongs to such a member |
| `Instructions.TextOf` | scraper.py:119 | `x.get('text', '')` succeeds exactly on dicts |
| `Instructions.Texts` | scraper.py:119 | the comprehension succeeds exactly when every element is a dict, and then gives each element's text, in order |
| `Instructions.JoinStrings` | scraper.py:120-122 | `''.join` succeeds exactly when every item is a string, and otherwise raises a `TypeError` |
| `Instructions.StringJoinIsIdentity` | scraper.py:122 | `''.join` over a string's characters gives back the string |
| `Instructions.JoinInstructions` | scraper.py:118-122 | the normalisation succeeds only on truthy values; a non-empty string comes back unchanged; dicts, numbers, booleans and `None` raise |
| `Instructions.UpdateInstructions` | scraper.py:117-122 | a key that is not found leaves the current instructions; a non-empty string replaces them as it is; a truthy dict, number or boolean raises; only a truthy located value can change them |
| `Instructions.ListAcceptedShapes` | scraper.py:118-122 | the first element alone picks the reading: after a dict first element, every element must be a dict whose text is a string; otherwise every element must be a string |
| `Instructions.TextOfReadsText` | scraper.py:119 | the text of a dict is the value of its member named `text`, whatever other members it has |
| `Instructions.TextOfDefaultsEmpty` | scraper.py:119 | a dict without a `text` member has the text `""` |
| `Instructions.StepTexts` | scraper.py:119 | one text per element, in order: the value of the element's first member named `text`, or `""` when it has none |
| `Instructions.StepListConcatenatesTexts` | scraper.py:118-120 | a non-empty list of dicts whose texts are strings gives every element's text (default `""`) joined with no separator |
| `Instructions.StringListConcatenates` | scraper.py:122 | a non-empty list of strings gives their concatenation with no separator |
| `Instructions.StepObjectsConcatenate` | scraper.py:118-120 | a non-empty list of `HowToStep` objects gives their texts joined, the same result as the list of those texts as strings |
| `Instructions.MissingTextIsEmpty` | scraper.py:119-120 | in any list of step objects, an element without a `text` member contributes `""` to the joined result |
| `Html.ContentTextAppend` | scraper.py:133-136 | the fallback text of a document is the fallback text of its parts, concatenated in document order |
| `Html.ContentTextOfOne` | scraper.py:130-135 | a single element contributes its whole text if it is an allow-listed `div`, and nothing otherwise |
| `Html.NoContentNoText` | scraper.py:130-136 | a page without allow-listed `div`s gives empty fallback text |
| `Html.ConcatContentTexts` | scraper.py:133-136 | the `+=` loop over the matching elements builds exactly the fallback text `ContentText`: every allow-listed `div`'s text in document order, nothing else |
| `Html.PrimarySubtag` | scraper.py:94 | the subtag is the prefix of the tag that holds no `-` and ends at the first `-` or at the end |
| `Html.PrimarySubtagUnique` | scraper.py:94 | any prefix with those properties is the subtag |
| `Html.PrimarySubtagOfTagged` | scraper.py:94 | `lang-region` gives `lang`, and a tag without `-` is kept whole |
| `Html.DeclaredLanguage` | scraper.py:91-94 | a language is read exactly when the root has a `lang` attribute, and it is the primary subtag of the first one |
| `Fetch.Rotate` | scraper.py:79-88 | the rotation is fetched at the first header set whose attempt gets a 200, and only there; it is exhausted exactly when every attempt is a non-200 response, and then reports the last status |
| `Fetch.RotateFrom` | scraper.py:79-84 | the loop from a given header set on keeps the same first-200 and exhaustion guarantees |
| `Fetch.LaterHeadersNeverTried` | scraper.py:79-84 | sites that agree up to the first 200 give the same outcome, so later header sets are never tried |
| `Extract.Step` | scraper.py:112-126 | one block sets ingredients, name and cook time to its own search answers, and updates the instructions only when its located instructions are truthy |
| `Extract.Process` | scraper.py:110-126 | the loop succeeds exactly when every block decodes and normalises; ingredients, name and cook time come from the last block, `False` included; language stays empty |
| `Extract.InstructionsFromLastTruthyBlock` | scraper.py:111-122 | the instructions are the normalisation of the last block whose located instructions are truthy |
| `Extract.InstructionsBlankWithoutTruthyCheck` | scraper.py:106-122 | without such a block the instructions stay empty |
| `Extract.NeedsFallback` | scraper.py:129 | the fallback runs when there are no blocks or the last block's located instructions equal `False`; it is decided by the last block alone, and that block's located instructions are then falsy |
| `Extract.ExtractPage` | scraper.py:90-136 | when there is no block, or the last block's search answer equals `False`, the instructions are the allow-listed `div` texts; no other field changes; language is always empty |
| `Record.Argument` | scraper.py:21-31 | a parameter gets the value of the first item naming it, or `""` when none does |
| `Record.FirstUnexpected` | scraper.py:21-31 | finds an undeclared key exactly when the dict has one |
| `Record.Construct` | scraper.py:21-40 | `Recipe(**kw)` succeeds exactly when every key is a declared parameter, storing each passed value or `""`; otherwise it raises a `TypeError` naming an undeclared key |
| `Record.UrlOnly` | scraper.py:63-72 | the url-only record: url set, every other field `""` |
| `Record.InitialKwargs` | scraper.py:63-72 | the initial dict has each declared parameter exactly once and nothing else; the url holds the url and every other value is `""` |
| `Record.AssembledKwargs` | scraper.py:138-148 | the assembled dict has no key twice, holds every declared parameter, starts with the undeclared `page_genus`, and carries the extracted name, cook time, ingredients and instructions |
| `Record.InitialAccepted` | scraper.py:63-72 | the initial dict is accepted and gives the url-only record |
| `Record.AssembledRefused` | scraper.py:138-149 | the assembled dict is always refused on `page_genus` |
| `Scraper.Handler` | scraper.py:151-153 | the handler returns a record exactly when every key of `res` is a declared parameter, with each field the value passed for it or `""`; otherwise its `Recipe(**res)` raises a `TypeError` naming an undeclared key, which leaves the method |
| `Scraper.TryReturn` | scraper.py:149-153 | a `return Recipe(**res)` that raises inside the `try` ends as the handler does with the same dict |
| `Scraper.ScrapePage` | scraper.py:61-153 | every returned record is the url-only one; the call raises exactly when extraction completes, and the exception is the `TypeError` on `page_genus`; with no 200 the url-only record is returned |
| `Scraper.NoSuccessGivesUrlOnly` | scraper.py:79-88 | when no header set gets a 200, every field but the url is `""` |
| `Scraper.EarlyFailureGivesUrlOnly` | scraper.py:151-153 | an exception before the assembly gives the url-only record |
| `Examples.GraphPayloadSearched` | scraper.py:156-174 | the search walks into an `@graph` wrapper and finds the recipe's name |
| `Examples.DeepEarlierSiblingWins` | scraper.py:166-173 | an author's `name` in an earlier member beats the recipe's own later `name` |
| `Examples.StringNotSearched` | scraper.py:157-160 | a string equal to the key, alone or in a list, is not found |
| `Examples.FalsyOnlyWhenDirect` | scraper.py:161-173 | `""` is answered for a direct member but skipped one level down |
| `Examples.InstructionShapes` | scraper.py:117-122 | two step objects give `"Mix.Bake."`; a plain string comes back unchanged |
| `Examples.PublishedStepTexts` | scraper.py:119 | a section without `text` reads as `""`, and steps with a `name` or `url` besides the `text` read as their text |
| `Examples.PublishedStepsJoined` | scraper.py:118-120 | for any step texts `mix` and `bake`, such a section followed by two such steps joins to `mix + bake` |
| `Examples.MixedStepsRaise` | scraper.py:118-122 | a list mixing step objects and strings raises, whichever comes first |
| `Examples.SecondHeaderAccepted` | scraper.py:79-84 | with only the second header set answered by a 200, the fetch stops at it |
| `Examples.ZeroInstructionsFallBack` | scraper.py:129-136 | located instructions `0` equal `False` and are replaced by the fallback text |
| `Examples.EmptyInstructionsNoFallback` | scraper.py:117-129 | located instructions `""` trigger neither normalisation nor fallback |
| `Examples.LastBlockOverwritesWithFalse` | scraper.py:111-125 | a later block without a name overwrites an earlier name with `False` |
| `Examples.EmptyLaterInstructionsKeepEarlier` | scraper.py:110-122 | a later block whose instructions are `""` leaves the earlier block's `"Mix."` in place |
| `Examples.LastBlockWithoutInstructionsDiscards` | scraper.py:110-136 | a last block without instructions answers `False`, so the fallback replaces the earlier block's `"Mix."` by the empty content text |
| `Examples.FallbackPageExtractedThenRefused` | scraper.py:110-153 | a page without JSON-LD gets its instructions from a content `div` and leaves the other fields `""`, yet the call ends in the `TypeError` |

## Left out

- HTTP retrieval (`requests.get`) is not modelled. Each attempt is an abstract function from request headers to a response (status and body) or a client exception. The `allow_redirects=False` flag matters only through the status it yields.
- `time.sleep(0.5)` after each attempt is not modelled. It has no effect on the outcome.
- HTML parsing by `lxml` and BeautifulSoup is not modelled. A body is either unparseable or a `Page`: the root's `lang` attribute values, the JSON-LD blocks, and the elements in document order.
- BeautifulSoup's class matching is simplified. An element matches when its tag is `div` and its whole `class` attribute is one of the listed values. BeautifulSoup also matches when any single whitespace-separated class is listed.
- `json.loads` is not modelled. A block is either a decoded tree or undecodable. A script whose `.string` is `None` counts as undecodable, since `json.loads(None)` also raises.
- JSON numbers are real numbers. `NaN` and `Infinity`, which `json.loads` also accepts, are not represented.
- `Json`: decoded dicts are assumed to have distinct keys, as `json.loads` produces. The search answers the value paired with the first matching member, which is the value `a[our_key]` reads.
- `Search.Locate`: a `RecursionError` on trees deeper than Python's recursion limit is not modelled.
- The `print` logging is not modelled, and neither are the unused `search_pattern_1`/`search_pattern_2` attributes.
- `Recipe.__repr__` and `Recipe.__setitem__` are not modelled. Only reading a field by name (`__getitem__`) is, as `Record.Field`.
- `Record.Construct` takes dict keys from the nine names the scraper uses, not arbitrary strings. Only those nine ever occur.
- `src/nmf_helpers.py` (topic modelling over floating-point matrices, NLP libraries, interactive input and pickle I/O) is not part of this model.

=== FILE: examples.dfy ===
/**
 * Lemmas about concrete payloads and pages, one per behaviour the scraper's
 * design and its quirks turn on.
 */
module Examples {
  import opened Python
  import opened Json
  import opened Search
  import opened Instructions
  import opened Html
  import opened Fetch
  import opened Extract
  import opened Scraper

  /** An `@graph` wrapper needs no special treatment: the search walks into it. */
  lemma GraphPayloadSearched()
    ensures Locate(JObj([
      Member("@context", JStr("https://schema.org")),
      Member("@graph", JArr([
        JObj([Member("@type", JStr("NutritionInformation"))]),
        JObj([Member("@type", JStr("Recipe")), Member("name", JStr("X"))])]))]), "name") == JStr("X")
  {
    var nutrition := JObj([Member("@type", JStr("NutritionInformation"))]);
    var recipe := [Member("@type", JStr("Recipe")), Member("name", JStr("X"))];
    assert Locate(nutrition, "name") == NotFound;
    assert LocateMembers(recipe, "name") == JStr("X") by {
      assert LocateMembers(recipe[1..], "name") == JStr("X");
    }
    var graph := [nutrition, JObj(recipe)];
    assert LocateItems(graph, "name") == JStr("X") by {
      assert graph[1..] == [JObj(recipe)];
      assert LocateItems(graph[1..], "name") == JStr("X");
    }
  }

  /** A match deep inside an earlier member beats a direct member that comes later. */
  lemma DeepEarlierSiblingWins()
    ensures Locate(JObj([
      Member("author", JObj([Member("name", JStr("Ann"))])),
      Member("name", JStr("Pie"))]), "name") == JStr("Ann")
  {
  }

  /** A string whose text is the key is still a scalar: its characters are not searched. */
  lemma StringNotSearched()
    ensures Locate(JStr("name"), "name") == NotFound
    ensures Locate(JArr([JStr("name")]), "name") == NotFound
  {
  }

  /** A falsy value is answered for a direct member, but skipped one level down. */
  lemma FalsyOnlyWhenDirect()
    ensures Locate(JObj([Member("cookTime", JStr(""))]), "cookTime") == JStr("")
    ensures Locate(JArr([JObj([Member("cookTime", JStr(""))])]), "cookTime") == NotFound
    ensures Locate(JArr([
      JObj([Member("cookTime", JStr(""))]),
      JObj([Member("cookTime", JStr("PT1H"))])]), "cookTime") == JStr("PT1H")
  {
  }

  /** Step objects are joined without a separator; a plain string is kept as it is. */
  lemma InstructionShapes()
    ensures JoinInstructions(JArr([HowToStep("Mix."), HowToStep("Bake.")])) == Ok("Mix.Bake.")
    ensures JoinInstructions(JStr("Mix and bake.")) == Ok("Mix and bake.")
  {
    StepObjectsConcatenate(["Mix.", "Bake."]);
    assert HowToSteps(["Mix.", "Bake."]) == [HowToStep("Mix."), HowToStep("Bake.")];
    assert ["Mix.", "Bake."][1..] == ["Bake."];
    assert Join(["Bake."]) == "Bake." + Join([]);
    assert Join(["Mix.", "Bake."]) == "Mix." + "Bake.";
    assert "Mix." + "Bake." == "Mix.Bake.";
  }

  /**
   * Steps as sites publish them, with a `name` or a `url` besides the `text`,
   * after a section header without any `text`.
   */
  function PublishedSteps(mix: string, bake: string): seq<Json> {
    [JObj([Member("@type", JStr("HowToSection")), Member("name", JStr("Dough"))]),
     JObj([Member("@type", JStr("HowToStep")), Member("name", JStr("Mix")), Member("text", JStr(mix))]),
     JObj([Member("@type", JStr("HowToStep")), Member("text", JStr(bake)), Member("url", JStr("#s2"))])]
  }

  lemma PublishedStepTexts(mix: string, bake: string)
    ensures StepList(PublishedSteps(mix, bake)) && StepTexts(PublishedSteps(mix, bake)) == ["", mix, bake]
  {
    var items := PublishedSteps(mix, bake);
    TextOfDefaultsEmpty(items[0].members);
    TextOfReadsText(items[1].members, 2);
    TextOfReadsText(items[2].members, 1);
    assert StepList(items);
    var texts := StepTexts(items);
    assert texts[0] == "" && texts[1] == mix && texts[2] == bake;
  }

  /** The section contributes nothing, and the extra members are ignored. */
  lemma PublishedStepsJoined(mix: string, bake: string)
    ensures JoinInstructions(JArr(PublishedSteps(mix, bake))) == Ok(mix + bake)
  {
    PublishedStepTexts(mix, bake);
    StepListConcatenatesTexts(PublishedSteps(mix, bake));
    assert Join(["", mix, bake]) == mix + bake by {
      assert [bake][1..] == [] && Join([bake]) == bake;
      assert [mix, bake][1..] == [bake] && Join([mix, bake]) == mix + bake;
      assert ["", mix, bake][1..] == [mix, bake];
      assert "" + (mix + bake) == mix + bake;
    }
  }

  /** A list that starts with a step object and then holds a string raises. */
  lemma MixedStepsRaise()
    ensures JoinInstructions(JArr([HowToStep("Mix."), JStr("Bake.")])) == Raise(NoGetMethod)
    ensures JoinInstructions(JArr([JStr("Mix."), HowToStep("Bake.")])) == Raise(JoinOfNonString)
  {
    var items := [HowToStep("Mix."), JStr("Bake.")];
    assert Texts(items).Raise?;
    assert Texts(items[1..]) == Raise(NoGetMethod);
  }

  /** Of three header sets where only the second gets a 200, the third is never tried. */
  lemma SecondHeaderAccepted(page: Page, other: Header -> Attempt)
    requires forall h :: other(h) == if h == HeaderMap[1] then Response(200, Parsed(page)) else Response(403, Unparseable)
    ensures Rotate(HeaderMap, other) == Fetched(1, Parsed(page))
  {
    assert FirstAccepted(HeaderMap, other, 1);
  }

  function OneBlock(tree: Json): Page {
    Page([], [Decodable(tree)], [Element("div", "entry-content", "Whisk the eggs.")])
  }

  /** Instructions located as `0` compare equal to `False`, so the HTML fallback replaces them. */
  lemma ZeroInstructionsFallBack()
    ensures ExtractPage(OneBlock(JObj([Member("recipeInstructions", JNum(0.0))]))).value.instructions
      == "Whisk the eggs."
  {
  }

  /** Instructions located as `""` are falsy but not equal to `False`: no fallback, and they stay empty. */
  lemma EmptyInstructionsNoFallback()
    ensures ExtractPage(OneBlock(JObj([Member("recipeInstructions", JStr(""))]))).value.instructions == ""
  {
  }

  /** A later block without a name overwrites an earlier name with `False`. */
  lemma LastBlockOverwritesWithFalse()
    ensures Process([
      Decodable(JObj([Member("name", JStr("Pie"))])),
      Decodable(JObj([Member("url", JStr("x"))]))]).value.recipeName == NotFound
  {
    var blocks := [Decodable(JObj([Member("name", JStr("Pie"))])), Decodable(JObj([Member("url", JStr("x"))]))];
    assert Usable(blocks[0]) && Usable(blocks[1]);
  }

  /** A later block whose instructions are `""` does not replace the instructions of an earlier block. */
  lemma EmptyLaterInstructionsKeepEarlier()
    ensures Process([
      Decodable(JObj([Member("recipeInstructions", JStr("Mix."))])),
      Decodable(JObj([Member("recipeInstructions", JStr(""))]))]).value.instructions == "Mix."
  {
    var blocks := [Decodable(JObj([Member("recipeInstructions", JStr("Mix."))])),
                   Decodable(JObj([Member("recipeInstructions", JStr(""))]))];
    StringJoinIsIdentity("Mix.");
    assert Usable(blocks[0]) && Usable(blocks[1]);
    assert LastTruthyCheck(blocks, 0);
    InstructionsFromLastTruthyBlock(blocks, 0);
  }

  /**
   * A last block without instructions, here an `Organization`, answers `False`:
   * the fallback runs and, with no content `div` on the page, replaces the
   * recipe's instructions by `""`.
   */
  lemma LastBlockWithoutInstructionsDiscards()
    ensures ExtractPage(Page([], [
      Decodable(JObj([Member("recipeInstructions", JStr("Mix."))])),
      Decodable(JObj([Member("@type", JStr("Organization"))]))], [])).value.instructions == ""
  {
    var blocks := [Decodable(JObj([Member("recipeInstructions", JStr("Mix."))])),
                   Decodable(JObj([Member("@type", JStr("Organization"))]))];
    StringJoinIsIdentity("Mix.");
    assert Usable(blocks[0]) && Usable(blocks[1]);
    assert LastTruthyCheck(blocks, 0);
    InstructionsFromLastTruthyBlock(blocks, 0);
  }

  /**
   * A page without JSON-LD takes its instructions from the content `div`s and
   * leaves the other fields empty, yet the assembled dict is refused and the
   * call ends in a `TypeError`.
   */
  lemma FallbackPageExtractedThenRefused(url: string, site: Header -> Attempt, text: string)
    requires site(HeaderMap[0]) == Response(200, Parsed(Page([], [], [Element("div", "entry-content", text)])))
    ensures var f := ExtractPage(Page([], [], [Element("div", "entry-content", text)])).value;
      f.instructions == text && f.recipeName == f.cookTime == f.ingredients == JStr("")
    ensures ScrapePage(url, site) == Escaped(UnexpectedKeyword("page_genus"))
  {
    assert FirstAccepted(HeaderMap, site, 0);
    ContentTextOfOne(Element("div", "entry-content", text));
  }
}

=== FILE: extract.dfy ===
/**
 * The extraction part of `scrape_page` (scraper.py:90-136): the loop over the
 * JSON-LD blocks, in which every block overwrites the fields found in the
 * blocks before it, and the HTML fallback that replaces the instructions
 * when there is no block or when the last block has no usable instructions.
 */
module Extract {
  import opened Python
  import opened Json
  import opened Search
  import opened Instructions
  import opened Html

  /**
   * The locals that reach the result dict (lines 99-106). The fields found by
   * the search keep whatever JSON value it answered, `False` included; only
   * the instructions are always a string.
   */
  datatype Fields = Fields(language: string, recipeName: Json, cookTime: Json, ingredients: Json, instructions: string)

  /** Lines 99-106: every local starts as the empty string, the language included. */
  const Blank: Fields := Fields("", JStr(""), JStr(""), JStr(""), "")

  /** The located `recipeInstructions` of a decoded block (line 113). */
  function Check(tree: Json): Json {
    Locate(tree, "recipeInstructions")
  }

  /** A block the loop gets through without raising. */
  predicate Usable(b: Block) {
    b.Decodable? && (!Truthy(Check(b.tree)) || JoinInstructions(Check(b.tree)).Ok?)
  }

  /** One pass of the loop body on a decoded block (lines 113-126). */
  function Step(f: Fields, tree: Json): (r: Result<Fields>)
    ensures r.Ok? <==> Usable(Decodable(tree))
    ensures r.Ok? ==> r.value.language == f.language
    ensures r.Ok? ==> r.value.ingredients == Locate(tree, "recipeIngredient")
    ensures r.Ok? ==> r.value.recipeName == Locate(tree, "name")
    ensures r.Ok? ==> r.value.cookTime == Locate(tree, "cookTime")
    ensures r.Ok? && !Truthy(Check(tree)) ==> r.value.instructions == f.instructions
    ensures r.Ok? && Truthy(Check(tree)) ==> JoinInstructions(Check(tree)) == Ok(r.value.instructions)
  {
    var instructions :- UpdateInstructions(Check(tree), f.instructions);
    Ok(f.(instructions := instructions,
          ingredients := Locate(tree, "recipeIngredient"),
          recipeName := Locate(tree, "name"),
          cookTime := Locate(tree, "cookTime")))
  }

  /**
   * The loop over the blocks in document order (lines 110-126), starting from
   * the blank locals. A block that does not decode, or whose instructions do
   * not join, raises and ends the extraction.
   */
  function Process(blocks: seq<Block>): (r: Result<Fields>)
    ensures r.Ok? <==> forall i :: 0 <= i < |blocks| ==> Usable(blocks[i])
    ensures r.Ok? ==> r.value.language == ""
    ensures r.Ok? && |blocks| == 0 ==> r.value == Blank
    ensures r.Ok? && |blocks| > 0 ==>
      var last := blocks[|blocks| - 1].tree;
      && r.value.ingredients == Locate(last, "recipeIngredient")
      && r.value.recipeName == Locate(last, "name")
      && r.value.cookTime == Locate(last, "cookTime")
    decreases |blocks|
  {
    if |blocks| == 0 then Ok(Blank)
    else
      var front := blocks[..|blocks| - 1];
      assert forall i :: 0 <= i < |front| ==> front[i] == blocks[i];
      var f :- Process(front);
      match blocks[|blocks| - 1]
      case Undecodable => Raise(JsonDecodeError)
      case Decodable(tree) => Step(f, tree)
  }

  /** `k` is the last block whose located instructions are truthy. */
  predicate LastTruthyCheck(blocks: seq<Block>, k: nat) {
    && k < |blocks|
    && blocks[k].Decodable? && Truthy(Check(blocks[k].tree))
    && forall i :: k < i < |blocks| ==> !(blocks[i].Decodable? && Truthy(Check(blocks[i].tree)))
  }

  /**
   * The instructions come from the last block whose located instructions are
   * truthy: later blocks with falsy instructions leave them alone.
   */
  lemma {:induction false} InstructionsFromLastTruthyBlock(blocks: seq<Block>, k: nat)
    requires Process(blocks).Ok? && LastTruthyCheck(blocks, k)
    ensures JoinInstructions(Check(blocks[k].tree)) == Ok(Process(blocks).value.instructions)
    decreases |blocks|
  {
    var front := blocks[..|blocks| - 1];
    assert forall i :: 0 <= i < |front| ==> front[i] == blocks[i];
    if k < |blocks| - 1 {
      assert LastTruthyCheck(front, k);
      InstructionsFromLastTruthyBlock(front, k);
    }
  }

  /** With no block whose located instructions are truthy, the instructions stay empty. */
  lemma {:induction false} InstructionsBlankWithoutTruthyCheck(blocks: seq<Block>)
    requires Process(blocks).Ok?
    requires forall i :: 0 <= i < |blocks| ==> !(blocks[i].Decodable? && Truthy(Check(blocks[i].tree)))
    ensures Process(blocks).value.instructions == ""
    decreases |blocks|
  {
    if |blocks| > 0 {
      var front := blocks[..|blocks| - 1];
      assert forall i :: 0 <= i < |front| ==> front[i] == blocks[i];
      InstructionsBlankWithoutTruthyCheck(front);
    }
  }

  /**
   * The fallback test (line 129): no block at all, or the search on the last
   * block's tree answers something equal to `False`, which `0` also is.
   */
  predicate NeedsFallback(blocks: seq<Block>)
    ensures NeedsFallback(blocks) && |blocks| > 0 ==>
      blocks[|blocks| - 1].Decodable? && !Truthy(Check(blocks[|blocks| - 1].tree))
  {
    |blocks| == 0 ||
    (blocks[|blocks| - 1].Decodable? && EqualsFalse(Check(blocks[|blocks| - 1].tree)))
  }

  /**
   * Lines 90-136 on a parsed page. The declared language is read (lines 91-94)
   * but the reset of line 102 discards it, so the language is always empty.
   */
  function ExtractPage(page: Page): (r: Result<Fields>)
    ensures r.Ok? <==> Process(page.blocks).Ok?
    ensures r.Ok? ==> r.value.language == ""
    ensures r.Ok? ==> var f := Process(page.blocks).value;
      && r.value.recipeName == f.recipeName
      && r.value.cookTime == f.cookTime
      && r.value.ingredients == f.ingredients
    ensures r.Ok? && NeedsFallback(page.blocks) ==> r.value.instructions == ContentText(page.elements)
    ensures r.Ok? && !NeedsFallback(page.blocks) ==> r.value.instructions == Process(page.blocks).value.instructions
  {
    var declared := DeclaredLanguage(page);
    var f :- Process(page.blocks);
    if NeedsFallback(page.blocks) then Ok(f.(instructions := ContentText(page.elements))) else Ok(f)
  }
}

=== FILE: fetch.dfy ===
/**
 * Page retrieval with header rotation (scraper.py:74-88). The site is an
 * abstract function from the request headers to what one GET with those
 * headers produces; the half-second sleep after each attempt has no effect
 * on the outcome and is not modelled.
 */
module Fetch {
  import opened Python
  import opened Html

  /** One set of request headers, as name/value pairs. */
  type Header = seq<(string, string)>

  /** The header sets tried, in order (line 74). */
  const HeaderMap: seq<Header> := [[("User-Agent", "Mozilla/5.0")], [("User-Agent", "XY")], []]

  /** What one GET produces: a response, or an exception out of the HTTP client. */
  datatype Attempt = Response(status: int, markup: Markup) | TransportError

  /** The state after the rotation loop and the status test that follows it. */
  datatype FetchOutcome =
    | Fetched(index: nat, markup: Markup)  // header set `index` got a 200 and the loop stopped there
    | Exhausted(status: int)               // no attempt got a 200; the last response had this status
    | FetchRaised(exc: Exception)          // an exception left the loop

  /** The attempt is a response with a status other than 200, so the loop goes on. */
  predicate Rejected(a: Attempt) {
    a.Response? && a.status != 200
  }

  /** `k` is the first header set whose attempt got a 200, every earlier one being rejected. */
  predicate FirstAccepted(headers: seq<Header>, site: Header -> Attempt, k: nat) {
    && k < |headers|
    && site(headers[k]).Response? && site(headers[k]).status == 200
    && forall i :: 0 <= i < k ==> Rejected(site(headers[i]))
  }

  /** The loop `for header in headers` followed by the test `if r.status_code != 200`. */
  function Rotate(headers: seq<Header>, site: Header -> Attempt): (r: FetchOutcome)
    ensures r.Fetched? ==> FirstAccepted(headers, site, r.index)
    ensures r.Fetched? ==> r.markup == site(headers[r.index]).markup
    ensures (exists k :: FirstAccepted(headers, site, k)) ==> r.Fetched?
    ensures r.Exhausted? <==> |headers| > 0 && forall i :: 0 <= i < |headers| ==> Rejected(site(headers[i]))
    ensures r.Exhausted? ==> r.status == site(headers[|headers| - 1]).status
  {
    if |headers| == 0 then FetchRaised(UnboundResponse) else RotateFrom(headers, site, 0)
  }

  /** The loop from header set `i` on, every earlier one having been rejected. */
  function RotateFrom(headers: seq<Header>, site: Header -> Attempt, i: nat): (r: FetchOutcome)
    requires i < |headers|
    requires forall j :: 0 <= j < i ==> Rejected(site(headers[j]))
    ensures r.Fetched? ==> FirstAccepted(headers, site, r.index)
    ensures r.Fetched? ==> r.markup == site(headers[r.index]).markup
    ensures (exists k :: i <= k && FirstAccepted(headers, site, k)) ==> r.Fetched?
    ensures r.Exhausted? <==> forall j :: i <= j < |headers| ==> Rejected(site(headers[j]))
    ensures r.Exhausted? ==> r.status == site(headers[|headers| - 1]).status
    decreases |headers| - i
  {
    match site(headers[i])
    case TransportError => FetchRaised(RequestFailed)
    case Response(status, markup) =>
      if status == 200 then Fetched(i, markup)
      else if i + 1 == |headers| then Exhausted(status)
      else RotateFrom(headers, site, i + 1)
  }

  /**
   * The loop stops at the first 200: two sites that answer the same up to and
   * including that attempt give the same outcome, so the later header sets
   * are never tried.
   */
  lemma LaterHeadersNeverTried(headers: seq<Header>, site: Header -> Attempt, other: Header -> Attempt, k: nat)
    requires FirstAccepted(headers, site, k)
    requires forall i :: 0 <= i <= k ==> other(headers[i]) == site(headers[i])
    ensures Rotate(headers, other) == Rotate(headers, site) == Fetched(k, site(headers[k]).markup)
  {
    assert FirstAccepted(headers, other, k);
  }
}

=== FILE: html.dfy ===
/**
 * What the scraper reads out of a fetched page, with the HTML and XPath
 * parsing abstracted away: the values of the root element's `lang`
 * attribute, the JSON-LD script blocks, and the page's elements in
 * document order.
 */
module Html {
  import opened Json
  import Python

  /** One `<script type="application/ld+json">` block. */
  datatype Block =
    | Decodable(tree: Json)   // `json.loads(block.string)` succeeds with this tree
    | Undecodable             // `json.loads` raises on the block's text

  /** An element of the page: its tag name, its `class` attribute and its text content. */
  datatype Element = Element(tag: string, classAttr: string, text: string)

  datatype Page = Page(langAttrs: seq<string>, blocks: seq<Block>, elements: seq<Element>)

  /** The response body: markup the HTML parser rejects, or a parsed page. */
  datatype Markup = Unparseable | Parsed(page: Page)

  /** The `class` values of the recipe-content containers (scraper.py:130-132). */
  const ContentClasses: seq<string> := [
    "body entry-content", "entry-content",
    "hrecipe", "post-entry", "post-content",
    "post-content__body", "recept", "recipe-content"
  ]

  /** A `div` whose class is one of the recipe-content containers. */
  predicate IsContent(e: Element) {
    e.tag == "div" && e.classAttr in ContentClasses
  }

  /**
   * The fallback instructions (lines 130-136): the text of every content
   * `div`, in document order, with no separator.
   */
  function ContentText(elements: seq<Element>): (r: string)
    decreases |elements|
  {
    if |elements| == 0 then ""
    else (if IsContent(elements[0]) then elements[0].text else "") + ContentText(elements[1..])
  }

  /** The fallback text of a document is the fallback text of its parts, in order. */
  lemma {:induction false} ContentTextAppend(a: seq<Element>, b: seq<Element>)
    ensures ContentText(a + b) == ContentText(a) + ContentText(b)
    decreases |a|
  {
    if |a| == 0 {
      assert a + b == b;
    } else {
      assert (a + b)[0] == a[0];
      assert (a + b)[1..] == a[1..] + b;
      ContentTextAppend(a[1..], b);
      var head := if IsContent(a[0]) then a[0].text else "";
      assert ContentText(a + b) == head + ContentText(a[1..] + b);
      assert ContentText(a) == head + ContentText(a[1..]);
    }
  }

  /**
   * The loop of lines 133-136 itself: `soup_string += str(r.text)` over the
   * matching elements in document order builds the fallback text.
   */
  method ConcatContentTexts(elements: seq<Element>) returns (text: string)
    ensures text == ContentText(elements)
  {
    text := "";
    var i := 0;
    while i < |elements|
      invariant 0 <= i <= |elements|
      invariant text == ContentText(elements[..i])
    {
      var e := elements[i];
      ContentTextAppend(elements[..i], [e]);
      ContentTextOfOne(e);
      assert elements[..i + 1] == elements[..i] + [e];
      if IsContent(e) {
        text := text + e.text;
      }
      i := i + 1;
    }
    assert elements[..i] == elements;
  }

  /** A page without content `div`s has an empty fallback text. */
  lemma {:induction false} NoContentNoText(elements: seq<Element>)
    requires forall i :: 0 <= i < |elements| ==> !IsContent(elements[i])
    ensures ContentText(elements) == ""
    decreases |elements|
  {
    if |elements| > 0 {
      NoContentNoText(elements[1..]);
    }
  }

  /** Exactly the content `div`s contribute: each one its whole text, everything else nothing. */
  lemma ContentTextOfOne(e: Element)
    ensures ContentText([e]) == if IsContent(e) then e.text else ""
  {
  }

  /** The primary language subtag (line 94): the part before the first `-`. */
  function PrimarySubtag(tag: string): (r: string)
    ensures r <= tag
    ensures '-' !in r
    ensures r == tag || tag[|r|] == '-'
    decreases |tag|
  {
    if |tag| == 0 || tag[0] == '-' then ""
    else [tag[0]] + PrimarySubtag(tag[1..])
  }

  /** A prefix with those three properties is the primary subtag: the contract pins the result down. */
  lemma {:induction false} PrimarySubtagUnique(tag: string, p: string)
    requires p <= tag && '-' !in p && (p == tag || tag[|p|] == '-')
    ensures p == PrimarySubtag(tag)
    decreases |tag|
  {
    if |tag| > 0 && tag[0] != '-' {
      assert p[0] == tag[0];
      assert p[1..] <= tag[1..];
      PrimarySubtagUnique(tag[1..], p[1..]);
    }
  }

  /** `"en-US"` gives `"en"`, and a language tag without a region is kept whole. */
  lemma PrimarySubtagOfTagged(lang: string, region: string)
    requires '-' !in lang
    ensures PrimarySubtag(lang + "-" + region) == lang
    ensures PrimarySubtag(lang) == lang
  {
    PrimarySubtagUnique(lang + "-" + region, lang);
    PrimarySubtagUnique(lang, lang);
  }

  /** The language the page declares on its root element, when it declares one (lines 91-94). */
  function DeclaredLanguage(page: Page): (r: Python.Option<string>)
    ensures r.Some? <==> |page.langAttrs| > 0
    ensures r.Some? ==> r.value == PrimarySubtag(page.langAttrs[0])
    ensures r.Some? ==> r.value <= page.langAttrs[0] && '-' !in r.value
  {
    if |page.langAttrs| > 0 then Python.Some(PrimarySubtag(page.langAttrs[0])) else Python.None
  }
}

=== FILE: instructions.dfy ===
/**
 * Normalisation of the located `recipeInstructions` value into one string
 * (scraper.py:115-122). A truthy value whose first element is a dict is read
 * as a list of step objects and their `text` members are concatenated;
 * anything else goes through `''.join`, which returns a string unchanged and
 * concatenates a list of strings. Every other shape raises, and the raise
 * aborts the whole extraction.
 */
module Instructions {
  import opened Python
  import opened Json

  /** Concatenation of the parts with no separator. */
  function Join(parts: seq<string>): string
    decreases |parts|
  {
    if |parts| == 0 then "" else parts[0] + Join(parts[1..])
  }

  /** `''.join(items)`: the items must all be strings. */
  function JoinStrings(items: seq<Json>): (r: Result<string>)
    ensures r.Ok? <==> forall i :: 0 <= i < |items| ==> items[i].JStr?
    ensures r.Raise? ==> r.exc == JoinOfNonString
    decreases |items|
  {
    if |items| == 0 then Ok("")
    else if !items[0].JStr? then Raise(JoinOfNonString)
    else
      var rest :- JoinStrings(items[1..]);
      assert forall i :: 1 <= i < |items| ==> items[i] == items[1..][i - 1];
      Ok(items[0].s + rest)
  }

  /** `x.get('text', '')`: only a dict has a `get` method. */
  function TextOf(x: Json): (r: Result<Json>)
    ensures r.Ok? <==> x.JObj?
  {
    match x
    case JObj(members) =>
      (match Get(members, "text")
       case Some(v) => Ok(v)
       case None => Ok(JStr("")))
    case _ => Raise(NoGetMethod)
  }

  /** `[x.get('text', '') for x in items]`. */
  function Texts(items: seq<Json>): (r: Result<seq<Json>>)
    ensures r.Ok? <==> forall i :: 0 <= i < |items| ==> items[i].JObj?
    ensures r.Ok? ==> |r.value| == |items|
    ensures r.Ok? ==> forall i :: 0 <= i < |items| ==> Ok(r.value[i]) == TextOf(items[i])
    decreases |items|
  {
    if |items| == 0 then Ok([])
    else
      var t :- TextOf(items[0]);
      var rest :- Texts(items[1..]);
      assert forall i :: 1 <= i < |items| ==> items[i] == items[1..][i - 1];
      Ok([t] + rest)
  }

  /** Lines 118-122 applied to a located value `check`. */
  function JoinInstructions(check: Json): (r: Result<string>)
    ensures r.Ok? ==> Truthy(check)
    ensures check.JStr? && Truthy(check) ==> r == Ok(check.s)
    ensures check.JObj? || check.JNum? || check.JBool? || check.JNull? ==> r.Raise?
  {
    match check
    case JStr(s) =>
      if |s| == 0 then Raise(IndexOutOfRange)
      else StringJoinIsIdentity(s); JoinStrings(Characters(s))
    case JArr(items) =>
      if |items| == 0 then Raise(IndexOutOfRange)
      else if items[0].JObj? then
        var texts :- Texts(items);
        JoinStrings(texts)
      else JoinStrings(items)
    case JObj(_) => Raise(MissingKey)
    case _ => Raise(NotSubscriptable)
  }

  /** Iterating a Python string yields its characters as one-character strings. */
  function Characters(s: string): seq<Json>
  {
    seq(|s|, i requires 0 <= i < |s| => JStr([s[i]]))
  }

  /** `''.join(s) == s` for a string `s`. */
  lemma {:induction false} StringJoinIsIdentity(s: string)
    ensures JoinStrings(Characters(s)) == Ok(s)
    decreases |s|
  {
    if |s| > 0 {
      assert Characters(s)[1..] == Characters(s[1..]);
      StringJoinIsIdentity(s[1..]);
      assert s == [s[0]] + s[1..];
    }
  }

  /**
   * The whole `if check:` statement (lines 117-122): a falsy located value
   * leaves the current instructions as they are.
   */
  function UpdateInstructions(check: Json, current: string): (r: Result<string>)
    ensures check == NotFound ==> r == Ok(current)
    ensures check.JStr? && check.s != "" ==> r == Ok(check.s)
    ensures Truthy(check) && (check.JObj? || check.JNum? || check.JBool?) ==> r.Raise?
    ensures r.Ok? && r.value != current ==> Truthy(check)
  {
    if Truthy(check) then JoinInstructions(check) else Ok(current)
  }

  // ----- The accepted representations -----

  /** A list of strings as JSON. */
  function StringList(parts: seq<string>): seq<Json>
  {
    seq(|parts|, i requires 0 <= i < |parts| => JStr(parts[i]))
  }

  /** A schema.org `HowToStep` object carrying one step's text. */
  function HowToStep(text: string): Json {
    JObj([Member("@type", JStr("HowToStep")), Member("text", JStr(text))])
  }

  function HowToSteps(parts: seq<string>): seq<Json>
  {
    seq(|parts|, i requires 0 <= i < |parts| => HowToStep(parts[i]))
  }

  /** `''.join` over a list of strings is their concatenation. */
  lemma {:induction false} JoinStringsOfStringList(parts: seq<string>)
    ensures JoinStrings(StringList(parts)) == Ok(Join(parts))
    decreases |parts|
  {
    if |parts| > 0 {
      assert StringList(parts)[1..] == StringList(parts[1..]);
      JoinStringsOfStringList(parts[1..]);
    }
  }

  /** A non-empty list of plain strings is concatenated with no separator. */
  lemma StringListConcatenates(parts: seq<string>)
    requires |parts| > 0
    ensures JoinInstructions(JArr(StringList(parts))) == Ok(Join(parts))
  {
    JoinStringsOfStringList(parts);
  }

  /**
   * Only the first element's shape chooses the reading: once it is a dict,
   * every element must be a dict whose `text`, if present, is a string; once
   * it is not, every element must be a string.
   */
  lemma ListAcceptedShapes(items: seq<Json>)
    requires |items| > 0
    ensures items[0].JObj? ==>
      (JoinInstructions(JArr(items)).Ok? <==>
        forall i :: 0 <= i < |items| ==> items[i].JObj? && TextOf(items[i]).value.JStr?)
    ensures !items[0].JObj? ==>
      (JoinInstructions(JArr(items)).Ok? <==> forall i :: 0 <= i < |items| ==> items[i].JStr?)
  {
    if items[0].JObj? {
      var texts := Texts(items);
      if texts.Ok? {
        assert forall i :: 0 <= i < |items| ==> Ok(texts.value[i]) == TextOf(items[i]);
      }
    }
  }

  // ----- Lists of step objects -----

  /** Every element is a dict whose `text`, when it has one, is a string. */
  predicate StepList(items: seq<Json>) {
    forall i :: 0 <= i < |items| ==> items[i].JObj? && TextOf(items[i]).value.JStr?
  }

  /** The `text` of each element, `""` for an element without one. */
  function StepTexts(items: seq<Json>): (r: seq<string>)
    requires StepList(items)
    ensures |r| == |items|
    ensures forall i, j ::
      (0 <= i < |items| && 0 <= j < |items[i].members| && items[i].members[j].key == "text" &&
       (forall m :: 0 <= m < j ==> items[i].members[m].key != "text"))
      ==> JStr(r[i]) == items[i].members[j].value
    ensures forall i ::
      (0 <= i < |items| && (forall j :: 0 <= j < |items[i].members| ==> items[i].members[j].key != "text"))
      ==> r[i] == ""
  {
    seq(|items|, i requires 0 <= i < |items| => TextOf(items[i]).value.s)
  }

  /** A dict's `text` is the value of its member named `text`, whatever other members it has. */
  lemma TextOfReadsText(members: seq<Member>, i: nat)
    requires i < |members| && members[i].key == "text"
    requires forall j :: 0 <= j < i ==> members[j].key != "text"
    ensures TextOf(JObj(members)) == Ok(members[i].value)
  {
  }

  /** A dict without a `text` member has the text `""`. */
  lemma TextOfDefaultsEmpty(members: seq<Member>)
    requires forall j :: 0 <= j < |members| ==> members[j].key != "text"
    ensures TextOf(JObj(members)) == Ok(JStr(""))
  {
  }

  /**
   * A non-empty list of dicts whose texts are strings gives the texts of all
   * its elements, in order, concatenated with no separator.
   */
  lemma StepListConcatenatesTexts(items: seq<Json>)
    requires |items| > 0 && StepList(items)
    ensures JoinInstructions(JArr(items)) == Ok(Join(StepTexts(items)))
  {
    var texts := StepTexts(items);
    var computed := Texts(items);
    assert computed.Ok?;
    assert forall i :: 0 <= i < |items| ==> Ok(computed.value[i]) == TextOf(items[i]);
    assert computed.value == StringList(texts);
    JoinStringsOfStringList(texts);
  }

  /** The step objects built from `parts` give back `parts` joined, as the plain strings would. */
  lemma StepObjectsConcatenate(parts: seq<string>)
    requires |parts| > 0
    ensures JoinInstructions(JArr(HowToSteps(parts))) == Ok(Join(parts))
    ensures JoinInstructions(JArr(HowToSteps(parts))) == JoinInstructions(JArr(StringList(parts)))
  {
    var items := HowToSteps(parts);
    forall i | 0 <= i < |items|
      ensures TextOf(items[i]) == Ok(JStr(parts[i]))
    {
      TextOfReadsText(items[i].members, 1);
    }
    assert StepTexts(items) == parts;
    StepListConcatenatesTexts(items);
    StringListConcatenates(parts);
  }

  /** In a list of step objects, an element without a `text` member contributes the empty string. */
  lemma MissingTextIsEmpty(items: seq<Json>, k: nat)
    requires |items| > 0 && StepList(items) && k < |items|
    requires forall j :: 0 <= j < |items[k].members| ==> items[k].members[j].key != "text"
    ensures JoinInstructions(JArr(items)) == Ok(Join(StepTexts(items)))
    ensures StepTexts(items)[k] == ""
  {
    TextOfDefaultsEmpty(items[k].members);
    StepListConcatenatesTexts(items);
  }
}

=== FILE: json.dfy ===
/**
 * A JSON-LD payload as `json.loads` decodes it: objects become dicts whose
 * members are visited in document order, arrays become lists, and the
 * scalars are strings, numbers, booleans and `None`. A decoded dict never
 * holds the same key twice (a repeated key keeps its last value), so a
 * member's key names it uniquely within its object.
 */
module Json {
  import opened Python

  datatype Json =
    | JNull
    | JBool(b: bool)
    | JNum(n: real)
    | JStr(s: string)
    | JArr(items: seq<Json>)
    | JObj(members: seq<Member>)

  datatype Member = Member(key: string, value: Json)

  /** The value the nested-key search returns when it finds nothing: `False`. */
  const NotFound: Json := JBool(false)

  /** Python truthiness: `False`, `None`, `0`, `""`, `[]` and `{}` are falsy. */
  predicate Truthy(j: Json) {
    match j
    case JNull => false
    case JBool(b) => b
    case JNum(n) => n != 0.0
    case JStr(s) => |s| > 0
    case JArr(items) => |items| > 0
    case JObj(members) => |members| > 0
  }

  /** Python's `v == False`, which also holds of the numbers `0` and `0.0`. */
  predicate EqualsFalse(j: Json) {
    j == JBool(false) || j == JNum(0.0)
  }

  predicate IsContainer(j: Json) {
    j.JArr? || j.JObj?
  }

  /** `d.get(k)`: the value of the member named `k`, if the object has one. */
  function Get(members: seq<Member>, k: string): (r: Option<Json>)
    ensures r.Some? <==> exists i :: 0 <= i < |members| && members[i].key == k
    ensures r.Some? ==> exists i :: 0 <= i < |members| && members[i] == Member(k, r.value)
    ensures forall i :: 0 <= i < |members| && members[i].key == k && (forall j :: 0 <= j < i ==> members[j].key != k) ==>
      r == Some(members[i].value)
  {
    if |members| == 0 then None
    else if members[0].key == k then Some(members[0].value)
    else
      var r := Get(members[1..], k);
      assert r.Some? ==> exists i :: 0 <= i < |members[1..]| && members[1..][i] == Member(k, r.value);
      r
  }

  /** `v` is the value of some member named `key`, at any depth below `j`. */
  predicate Occurs(j: Json, key: string, v: Json)
    decreases j
  {
    match j
    case JArr(items) => exists i :: 0 <= i < |items| && Occurs(items[i], key, v)
    case JObj(members) =>
      exists i :: 0 <= i < |members| &&
        ((members[i].key == key && members[i].value == v) || Occurs(members[i].value, key, v))
    case _ => false
  }

  /** Some member named `key` exists at some depth below `j`. */
  predicate Present(j: Json, key: string)
    decreases j
  {
    match j
    case JArr(items) => exists i :: 0 <= i < |items| && Present(items[i], key)
    case JObj(members) =>
      exists i :: 0 <= i < |members| && (members[i].key == key || Present(members[i].value, key))
    case _ => false
  }

  /** Every member named `key`, at any depth below `j`, has a truthy value. */
  predicate AllTruthy(j: Json, key: string)
    decreases j
  {
    match j
    case JArr(items) => forall i :: 0 <= i < |items| ==> AllTruthy(items[i], key)
    case JObj(members) =>
      forall i :: 0 <= i < |members| ==>
        (members[i].key == key ==> Truthy(members[i].value)) && AllTruthy(members[i].value, key)
    case _ => true
  }
}

=== FILE: python.dfy ===
/**
 * The small part of the Python runtime the scraper's behaviour depends on:
 * optional values, the exceptions its extraction code can raise, and a
 * result type that carries either a value or the exception raised instead.
 */
module Python {

  /** `None` or a value, as `dict.get` without a default returns it. */
  datatype Option<+T> = None | Some(value: T)

  /**
   * The exceptions the extraction code can raise. Every one of them is an
   * `Exception` subclass, so the scraper's catch-all handler catches them all;
   * they are kept apart only so that a contract can say which one occurs.
   */
  datatype Exception =
    | RequestFailed               // an exception out of the HTTP client
    | UnboundResponse             // the response variable read before any request
    | DocumentUnparseable         // the HTML parser rejects the markup
    | JsonDecodeError             // a JSON-LD block is not valid JSON
    | NotSubscriptable            // TypeError: `v[0]` on a number, a bool or None
    | IndexOutOfRange             // IndexError: `v[0]` on an empty string or list
    | MissingKey                  // KeyError: `v[0]` on a dict, whose keys are strings
    | NoGetMethod                 // AttributeError: `.get` on something that is not a dict
    | JoinOfNonString             // TypeError: `''.join` over an item that is not a string
    | UnexpectedKeyword(name: string) // TypeError: a keyword argument the callee does not declare

  /** A value, or the exception that was raised instead of producing it. */
  datatype Result<+T> = Ok(value: T) | Raise(exc: Exception) {

    predicate IsFailure() {
      Raise?
    }

    function PropagateFailure<U>(): Result<U>
      requires Raise?
    {
      Raise(exc)
    }

    function Extract(): T
      requires Ok?
    {
      value
    }
  }
}

=== FILE: record.dfy ===
/**
 * The `Recipe` record (scraper.py:18-49) and the keyword-argument call
 * `Recipe(**res)` that builds it from a dict. The constructor declares eight
 * keyword parameters, each defaulting to the empty string; a keyword it
 * does not declare raises a `TypeError`.
 */
module Record {
  import opened Python
  import opened Json
  import opened Extract

  /** The keys the scraper's result dicts use. */
  datatype Keyword =
    | PageGenus | PageFamily | PageSpecies | Url | Language
    | RecipeName | CookTime | Ingredients | Instructions

  /** The key as it is spelled in the source. */
  function Name(k: Keyword): string {
    match k
    case PageGenus => "page_genus"
    case PageFamily => "page_family"
    case PageSpecies => "page_species"
    case Url => "url"
    case Language => "language"
    case RecipeName => "recipe_name"
    case CookTime => "cook_time"
    case Ingredients => "ingredients"
    case Instructions => "instructions"
  }

  /** The keyword parameters of `Recipe.__init__` (lines 21-31): every key but `page_genus`. */
  predicate IsParameter(k: Keyword) {
    k != PageGenus
  }

  /** A recipe. Python does not check the declared `str` types, so each field holds any value. */
  datatype Recipe = Recipe(
    pageFamily: Json, pageSpecies: Json, url: Json, language: Json,
    recipeName: Json, cookTime: Json, ingredients: Json, instructions: Json)

  /** One item of a dict passed as `**kwargs`. */
  datatype Arg = Arg(key: Keyword, value: Json)

  /** A dict passed as `**kwargs`: its items in order, no key twice. */
  type Kwargs = seq<Arg>

  /** `recipe[name]` (lines 48-49) for the parameters the constructor stores. */
  function Field(recipe: Recipe, k: Keyword): Json
    requires IsParameter(k)
  {
    match k
    case PageFamily => recipe.pageFamily
    case PageSpecies => recipe.pageSpecies
    case Url => recipe.url
    case Language => recipe.language
    case RecipeName => recipe.recipeName
    case CookTime => recipe.cookTime
    case Ingredients => recipe.ingredients
    case Instructions => recipe.instructions
  }

  /** The value a parameter receives: the one passed for it, else the default `""`. */
  function Argument(kw: Kwargs, k: Keyword): (r: Json)
    ensures (forall i :: 0 <= i < |kw| ==> kw[i].key != k) ==> r == JStr("")
    ensures forall i :: 0 <= i < |kw| && kw[i].key == k && (forall j :: 0 <= j < i ==> kw[j].key != k) ==> r == kw[i].value
    decreases |kw|
  {
    if |kw| == 0 then JStr("")
    else if kw[0].key == k then kw[0].value
    else
      assert forall i :: 1 <= i < |kw| ==> kw[i] == kw[1..][i - 1];
      Argument(kw[1..], k)
  }

  /** The first key of the dict that is not a declared parameter. */
  function FirstUnexpected(kw: Kwargs): (r: Option<Keyword>)
    ensures r.None? <==> forall i :: 0 <= i < |kw| ==> IsParameter(kw[i].key)
    ensures r.Some? ==> !IsParameter(r.value) && exists i :: 0 <= i < |kw| && kw[i].key == r.value
    decreases |kw|
  {
    if |kw| == 0 then None
    else if !IsParameter(kw[0].key) then Some(kw[0].key)
    else
      var r := FirstUnexpected(kw[1..]);
      assert forall i :: 1 <= i < |kw| ==> kw[i] == kw[1..][i - 1];
      r
  }

  /** `Recipe(**kw)`: every parameter holds the value passed for it, or `""`. */
  function Construct(kw: Kwargs): (r: Result<Recipe>)
    ensures r.Ok? <==> forall i :: 0 <= i < |kw| ==> IsParameter(kw[i].key)
    ensures r.Raise? ==>
      exists i :: 0 <= i < |kw| && !IsParameter(kw[i].key) && r.exc == UnexpectedKeyword(Name(kw[i].key))
    ensures r.Ok? ==> forall k :: IsParameter(k) ==> Field(r.value, k) == Argument(kw, k)
  {
    match FirstUnexpected(kw)
    case Some(k) => Raise(UnexpectedKeyword(Name(k)))
    case None =>
      Ok(Recipe(
        Argument(kw, PageFamily), Argument(kw, PageSpecies), Argument(kw, Url), Argument(kw, Language),
        Argument(kw, RecipeName), Argument(kw, CookTime), Argument(kw, Ingredients), Argument(kw, Instructions)))
  }

  /**
   * Where a key stands in the dict of lines 138-148. The dict of lines 63-72
   * has no `page_genus`, so its keys stand one place earlier.
   */
  function Position(k: Keyword): nat {
    match k
    case PageGenus => 0
    case PageFamily => 1
    case PageSpecies => 2
    case Url => 3
    case Language => 4
    case RecipeName => 5
    case CookTime => 6
    case Ingredients => 7
    case Instructions => 8
  }

  /** The dict built before the fetch (lines 63-72): only the url is set. */
  function InitialKwargs(url: string): (r: Kwargs)
    ensures forall i, j :: 0 <= i < j < |r| ==> r[i].key != r[j].key
    ensures forall k :: IsParameter(k) <==> exists i :: 0 <= i < |r| && r[i].key == k
    ensures forall i :: 0 <= i < |r| ==> r[i].value == if r[i].key == Url then JStr(url) else JStr("")
  {
    var r := [
      Arg(PageFamily, JStr("")), Arg(PageSpecies, JStr("")), Arg(Url, JStr(url)), Arg(Language, JStr("")),
      Arg(RecipeName, JStr("")), Arg(CookTime, JStr("")), Arg(Ingredients, JStr("")), Arg(Instructions, JStr("")) ];
    assert forall k :: IsParameter(k) ==> r[Position(k) - 1].key == k;
    r
  }

  /** The dict built after extraction (lines 138-148), which adds a `page_genus` key. */
  function AssembledKwargs(url: string, f: Fields): (r: Kwargs)
    ensures forall i, j :: 0 <= i < j < |r| ==> r[i].key != r[j].key
    ensures forall k :: IsParameter(k) ==> exists i :: 0 <= i < |r| && r[i].key == k
    ensures |r| > 0 && !IsParameter(r[0].key)
    ensures forall i :: 0 <= i < |r| && r[i].key == Ingredients ==> r[i].value == f.ingredients
    ensures forall i :: 0 <= i < |r| && r[i].key == RecipeName ==> r[i].value == f.recipeName
    ensures forall i :: 0 <= i < |r| && r[i].key == CookTime ==> r[i].value == f.cookTime
    ensures forall i :: 0 <= i < |r| && r[i].key == Instructions ==> r[i].value == JStr(f.instructions)
  {
    var r := [
      Arg(PageGenus, JStr("")), Arg(PageFamily, JStr("")), Arg(PageSpecies, JStr("")),
      Arg(Url, JStr(url)), Arg(Language, JStr(f.language)), Arg(RecipeName, f.recipeName),
      Arg(CookTime, f.cookTime), Arg(Ingredients, f.ingredients), Arg(Instructions, JStr(f.instructions)) ];
    assert forall k :: IsParameter(k) ==> exists i :: 0 <= i < |r| && r[i].key == k by {
      forall k | IsParameter(k)
        ensures exists i :: 0 <= i < |r| && r[i].key == k
      {
        assert r[Position(k)].key == k;
      }
    }
    r
  }

  /** The record with the url set and every other field the empty string. */
  function UrlOnly(url: string): (r: Recipe)
    ensures forall k :: IsParameter(k) ==> Field(r, k) == if k == Url then JStr(url) else JStr("")
  {
    Recipe(JStr(""), JStr(""), JStr(url), JStr(""), JStr(""), JStr(""), JStr(""), JStr(""))
  }

  /** The initial dict is accepted and gives the url-only record. */
  lemma InitialAccepted(url: string)
    ensures Construct(InitialKwargs(url)) == Ok(UrlOnly(url))
  {
    var kw := InitialKwargs(url);
    assert FirstUnexpected(kw) == None;
    var r := Construct(kw).value;
    assert r == Recipe(
      Argument(kw, PageFamily), Argument(kw, PageSpecies), Argument(kw, Url), Argument(kw, Language),
      Argument(kw, RecipeName), Argument(kw, CookTime), Argument(kw, Ingredients), Argument(kw, Instructions));
    InitialArgument(url, PageFamily);
    InitialArgument(url, PageSpecies);
    InitialArgument(url, Url);
    InitialArgument(url, Language);
    InitialArgument(url, RecipeName);
    InitialArgument(url, CookTime);
    InitialArgument(url, Ingredients);
    InitialArgument(url, Instructions);
  }

  lemma InitialArgument(url: string, k: Keyword)
    ensures Argument(InitialKwargs(url), k) == if k == Url then JStr(url) else JStr("")
  {
    var kw := InitialKwargs(url);
    match k
    case PageGenus =>
    case PageFamily => assert kw[0].key == k;
    case PageSpecies => assert kw[1].key == k;
    case Url => assert kw[2].key == k;
    case Language => assert kw[3].key == k;
    case RecipeName => assert kw[4].key == k;
    case CookTime => assert kw[5].key == k;
    case Ingredients => assert kw[6].key == k;
    case Instructions => assert kw[7].key == k;
  }

  /** The assembled dict is always refused, on its first key `page_genus`. */
  lemma AssembledRefused(url: string, f: Fields)
    ensures Construct(AssembledKwargs(url, f)) == Raise(UnexpectedKeyword("page_genus"))
  {
    assert FirstUnexpected(AssembledKwargs(url, f)) == Some(PageGenus);
  }
}

=== FILE: scraper.dfy ===
/**
 * `ScrapePage.scrape_page` (scraper.py:61-153): fetch with header rotation,
 * extract, assemble, all inside one `try` whose handler rebuilds a `Recipe`
 * from whatever dict `res` holds at the time.
 *
 * The dict assembled after a successful extraction has a `page_genus` key
 * that `Recipe.__init__` does not declare. Building the record from it
 * raises, the handler builds it again from the same dict and raises again,
 * and that second exception leaves `scrape_page`. The only record the
 * method ever returns is the initial url-only one.
 */
module Scraper {
  import opened Python
  import opened Json
  import opened Html
  import opened Fetch
  import opened Extract
  import opened Record

  /** What a call of `scrape_page` ends with. */
  datatype ScrapeOutcome = Returned(recipe: Recipe) | Escaped(exc: Exception)

  /** The handler (lines 151-153): `return Recipe(**res)`, whose own exception propagates. */
  function Handler(res: Kwargs): (o: ScrapeOutcome)
    ensures o.Returned? <==> forall i :: 0 <= i < |res| ==> IsParameter(res[i].key)
    ensures o.Escaped? ==>
      exists i :: 0 <= i < |res| && !IsParameter(res[i].key) && o.exc == UnexpectedKeyword(Name(res[i].key))
    ensures o.Returned? ==> forall k :: IsParameter(k) ==> Field(o.recipe, k) == Argument(res, k)
  {
    match Construct(res)
    case Ok(recipe) => Returned(recipe)
    case Raise(e) => Escaped(e)
  }

  /** `return Recipe(**res)` inside the `try`: an exception goes to the handler with the same `res`. */
  function TryReturn(res: Kwargs): (o: ScrapeOutcome)
    ensures o == Handler(res)
  {
    match Construct(res)
    case Ok(recipe) => Returned(recipe)
    case Raise(_) => Handler(res)
  }

  /** The fetch got a 200, its body parsed, and every JSON-LD block went through the loop. */
  predicate ReachesAssembly(site: Header -> Attempt) {
    var fetched := Rotate(HeaderMap, site);
    fetched.Fetched? && fetched.markup.Parsed? && ExtractPage(fetched.markup.page).Ok?
  }

  /** The whole method for one url, with the site as an abstract function of the request headers. */
  function ScrapePage(url: string, site: Header -> Attempt): (o: ScrapeOutcome)
    ensures o.Returned? ==> o.recipe == UrlOnly(url)
    ensures o.Escaped? <==> ReachesAssembly(site)
    ensures o.Escaped? ==> o.exc == UnexpectedKeyword("page_genus")
    ensures Rotate(HeaderMap, site).Exhausted? ==> o == Returned(UrlOnly(url))
  {
    InitialAccepted(url);
    var initial := InitialKwargs(url);
    match Rotate(HeaderMap, site)
    case FetchRaised(_) => Handler(initial)
    case Exhausted(_) => TryReturn(initial)
    case Fetched(_, Unparseable) => Handler(initial)
    case Fetched(_, Parsed(page)) =>
      match ExtractPage(page)
      case Raise(_) => Handler(initial)
      case Ok(f) =>
        AssembledRefused(url, f);
        TryReturn(AssembledKwargs(url, f))
  }

  /**
   * When no header set gets a 200 the url-only record comes back: the url set
   * and every other field the empty string.
   */
  lemma NoSuccessGivesUrlOnly(url: string, site: Header -> Attempt)
    requires forall i :: 0 <= i < |HeaderMap| ==> Rejected(site(HeaderMap[i]))
    ensures ScrapePage(url, site) == Returned(UrlOnly(url))
    ensures forall k :: IsParameter(k) && k != Url ==> Field(ScrapePage(url, site).recipe, k) == JStr("")
  {
  }

  /** Any exception before the assembly, from the fetch, the HTML parser or the block loop, gives the url-only record too. */
  lemma EarlyFailureGivesUrlOnly(url: string, site: Header -> Attempt)
    requires !ReachesAssembly(site)
    ensures ScrapePage(url, site) == Returned(UrlOnly(url))
  {
    InitialAccepted(url);
  }
}

=== FILE: search.dfy ===
/**
 * The generic nested-key search `find_value_of_nested_dict_or_list`
 * (scraper.py:156-174): a depth-first walk of a decoded JSON-LD tree that
 * answers the value of the first member named `key` it accepts, or `False`.
 *
 * Only lists and dicts are walked. Strings are iterable in Python but are
 * answered with `False` like every other scalar, so their characters are
 * never searched. A nested answer is accepted only when it is truthy, so a
 * falsy value is returned only when it belongs to a direct member of the
 * node the search started from.
 */
module Search {
  import opened Json

  /** The search on any node. */
  function Locate(j: Json, key: string): (r: Json)
    ensures r == NotFound || Occurs(j, key, r)
    ensures !IsContainer(j) ==> r == NotFound
    ensures Truthy(r) || r == NotFound || (j.JObj? && DirectValue(j.members, key, r))
    decreases j
  {
    match j
    case JArr(items) => LocateItems(items, key)
    case JObj(members) => LocateMembers(members, key)
    case _ => NotFound
  }

  /** `v` is the value of a member named `key` of this very object. */
  predicate DirectValue(members: seq<Member>, key: string, v: Json) {
    exists i :: 0 <= i < |members| && members[i] == Member(key, v)
  }

  /** The loop over a list (lines 161-165): the first truthy nested answer. */
  function LocateItems(items: seq<Json>, key: string): (r: Json)
    ensures r == NotFound || (Truthy(r) && Occurs(JArr(items), key, r))
    decreases items
  {
    if |items| == 0 then NotFound
    else
      var found := Locate(items[0], key);
      if Truthy(found) then found
      else
        var r := LocateItems(items[1..], key);
        assert r != NotFound ==> exists i :: 0 <= i < |items[1..]| && Occurs(items[1..][i], key, r);
        r
  }

  /**
   * The loop over a dict (lines 166-173): a member named `key` answers its own
   * value at once, whatever it is; any other member answers its nested
   * result when that is truthy.
   */
  function LocateMembers(members: seq<Member>, key: string): (r: Json)
    ensures r == NotFound || Occurs(JObj(members), key, r)
    ensures Truthy(r) || r == NotFound || DirectValue(members, key, r)
    decreases members
  {
    if |members| == 0 then NotFound
    else if members[0].key == key then members[0].value
    else
      var found := Locate(members[0].value, key);
      if Truthy(found) then found
      else
        var r := LocateMembers(members[1..], key);
        assert r != NotFound ==>
          exists i :: 0 <= i < |members[1..]| &&
            ((members[1..][i].key == key && members[1..][i].value == r) || Occurs(members[1..][i].value, key, r));
        assert DirectValue(members[1..], key, r) ==> DirectValue(members, key, r);
        r
  }

  // ----- Search order -----

  /** A member where the dict loop stops: it is named `key`, or its nested answer is truthy. */
  predicate Stops(m: Member, key: string) {
    m.key == key || Truthy(Locate(m.value, key))
  }

  /** What the dict loop returns when it stops at `m`. */
  function Answer(m: Member, key: string): Json {
    if m.key == key then m.value else Locate(m.value, key)
  }

  /**
   * On a list, the answer is the nested answer of the first element whose
   * nested answer is truthy; the elements after it are never searched.
   */
  lemma {:induction false} ArrayFirstTruthyWins(items: seq<Json>, key: string, k: nat)
    requires k < |items| && Truthy(Locate(items[k], key))
    requires forall i :: 0 <= i < k ==> !Truthy(Locate(items[i], key))
    ensures Locate(JArr(items), key) == Locate(items[k], key)
    decreases k
  {
    if k > 0 {
      assert !Truthy(Locate(items[0], key));
      ArrayFirstTruthyWins(items[1..], key, k - 1);
    }
  }

  /** On a list none of whose elements yields a truthy answer, the search answers `False`. */
  lemma {:induction false} ArrayNoTruthyNotFound(items: seq<Json>, key: string)
    requires forall i :: 0 <= i < |items| ==> !Truthy(Locate(items[i], key))
    ensures Locate(JArr(items), key) == NotFound
    decreases |items|
  {
    if |items| > 0 {
      assert !Truthy(Locate(items[0], key));
      ArrayNoTruthyNotFound(items[1..], key);
    }
  }

  /**
   * On a dict, the members are visited in order and the first one where the
   * loop stops decides the answer: its own value when it is named `key`,
   * otherwise its truthy nested answer. A deep match inside an earlier
   * sibling therefore wins over a direct member that comes later.
   */
  lemma {:induction false} ObjectFirstStopWins(members: seq<Member>, key: string, k: nat)
    requires k < |members| && Stops(members[k], key)
    requires forall i :: 0 <= i < k ==> !Stops(members[i], key)
    ensures Locate(JObj(members), key) == Answer(members[k], key)
    decreases k
  {
    if k > 0 {
      assert !Stops(members[0], key);
      ObjectFirstStopWins(members[1..], key, k - 1);
    }
  }

  /** On a dict where the loop never stops, the search answers `False`. */
  lemma {:induction false} ObjectNoStopNotFound(members: seq<Member>, key: string)
    requires forall i :: 0 <= i < |members| ==> !Stops(members[i], key)
    ensures Locate(JObj(members), key) == NotFound
    decreases |members|
  {
    if |members| > 0 {
      assert !Stops(members[0], key);
      ObjectNoStopNotFound(members[1..], key);
    }
  }

  // ----- What is found -----

  lemma {:induction false} OccursIsPresent(j: Json, key: string, v: Json)
    requires Occurs(j, key, v)
    ensures Present(j, key)
    decreases j
  {
    match j
    case JArr(items) =>
      var i :| 0 <= i < |items| && Occurs(items[i], key, v);
      OccursIsPresent(items[i], key, v);
    case JObj(members) =>
      var i :| 0 <= i < |members| &&
        ((members[i].key == key && members[i].value == v) || Occurs(members[i].value, key, v));
      if members[i].key != key {
        OccursIsPresent(members[i].value, key, v);
      }
  }

  /** A key that occurs nowhere in the tree is not found. */
  lemma AbsentKeyNotFound(j: Json, key: string)
    requires !Present(j, key)
    ensures Locate(j, key) == NotFound
  {
    var r := Locate(j, key);
    if r != NotFound {
      OccursIsPresent(j, key, r);
    }
  }

  /**
   * When the key occurs somewhere and every occurrence carries a truthy value,
   * the search finds one of those occurrences.
   */
  lemma {:induction false} FoundWhenAllTruthy(j: Json, key: string)
    requires Present(j, key) && AllTruthy(j, key)
    ensures Truthy(Locate(j, key)) && Occurs(j, key, Locate(j, key))
    decreases j
  {
    match j
    case JArr(items) => ItemsFound(items, key);
    case JObj(members) => MembersFound(members, key);
  }

  lemma {:induction false} ItemsFound(items: seq<Json>, key: string)
    requires exists i :: 0 <= i < |items| && Present(items[i], key)
    requires forall i :: 0 <= i < |items| ==> AllTruthy(items[i], key)
    ensures Truthy(LocateItems(items, key))
    decreases items
  {
    if !Truthy(Locate(items[0], key)) {
      if Present(items[0], key) {
        FoundWhenAllTruthy(items[0], key);
        assert false;
      }
      var i :| 0 <= i < |items| && Present(items[i], key);
      assert 0 <= i - 1 < |items[1..]| && Present(items[1..][i - 1], key);
      ItemsFound(items[1..], key);
    }
  }

  lemma {:induction false} MembersFound(members: seq<Member>, key: string)
    requires exists i :: 0 <= i < |members| && (members[i].key == key || Present(members[i].value, key))
    requires forall i :: 0 <= i < |members| ==>
      (members[i].key == key ==> Truthy(members[i].value)) && AllTruthy(members[i].value, key)
    ensures Truthy(LocateMembers(members, key))
    decreases members
  {
    if members[0].key != key && !Truthy(Locate(members[0].value, key)) {
      if Present(members[0].value, key) {
        FoundWhenAllTruthy(members[0].value, key);
        assert false;
      }
      var i :| 0 <= i < |members| && (members[i].key == key || Present(members[i].value, key));
      assert 0 <= i - 1 < |members[1..]| &&
        (members[1..][i - 1].key == key || Present(members[1..][i - 1].value, key));
      MembersFound(members[1..], key);
    }
  }
}
